=== FILE: README.md ===
# Scan request/response pipeline, modelled in Dafny

This project models the one piece of logic in the Escalter front-end that is
not presentation: a scan. The user picks an image and a scanner kind (food,
vehicle, document or object). `analyzeImage` strips the data-URL header from
the image. It prefixes the kind's instruction template with a fixed "raw JSON
only" directive and calls the Gemini model once. An empty reply becomes `"{}"`,
and any failure becomes one opaque error. `runScan` in the scanner modal deletes
Markdown code fences from the reply, parses it, and derives a summary from the
first truthy value among four keys. Only when all of that succeeds does it
hand a record to the App, which puts the record at the front of the session
history.

Modules, one per concern:

- `Results` (`results.dfy`): `Option` (JavaScript `undefined`) and `Result` (a
  call that returns or throws).
- `Text` (`text.dfy`): the two JavaScript string operations the code calls,
  `split(',')` (`Split`) and global literal `replace(/p/g, '')` (`RemoveAll`).
  It also holds the model's own helpers for stating them: prefix, occurrence,
  first index, join, and the cut of a string at pattern matches.
- `Json` (`json.dfy`): parsed JSON values, JavaScript truthiness, and reading a
  named property (which throws on `null`).
- `Scanner` (`scanner.dfy`): `ScannerType` and the history record `ScanRecord`
  (types.ts).
- `GeminiService` (`gemini.dfy`): the templates, header stripping, the prompt,
  and `analyzeImage`.
- `ScanFlow` (`scanflow.dfy`): fence cleanup, the summary, and the modal's
  `runScan` as a pure state transition.
- `History` (`history.dfy`): `handleScanComplete` and the end-to-end
  properties of one scan.

The Gemini endpoint is a parameter of type `Provider`: a function from the
request (payload and prompt) to either the reply text, which may be missing,
or a failure. `JSON.parse` is also a parameter, of type `Parser`: a function
from text to a parsed value, or `None` for a syntax error. Record ids and dates
(`Date.now()`, `toISOString()`) are passed in as strings. One application of
the provider is one attempt, so there is no retry to model.

Behaviour of the code worth noting:

- `summary` is typed `string` but holds whatever value the `||` chain returns.
  A number, array or object under a summary key becomes the summary. The
  model therefore keeps `summary` as a `Json` value.
- A reply that parses to JSON `null` replaces the shown result with `null`
  (`setResult`), which clears the result panel. Then reading
  `parsed.resumo_proposito` throws, so the scan alerts and produces no record.
- `!image` treats the empty string like no image.
- A reply of just an empty fenced block ("```json```") is not an empty reply.
  It cleans to the empty string, which `JSON.parse` rejects. So
  `FencedReplyScansLikeBare` requires a non-empty body.

## Model

| member | source | states |
|---|---|---|
| Text.RemoveAll | App.tsx:125 | Deleting a literal pattern globally shortens the text exactly when the pattern occurs in it, and leaves text without the pattern unchanged |
| Text.Pieces | App.tsx:125 | Every text is cut at the leftmost, non-overlapping matches of the pattern, the ones a global `replace` finds: the pieces interleaved with the pattern give back the text, no match starts inside a piece, and the last piece holds none |
| Text.RemoveAllKeepsPieces | App.tsx:125 | For any such cut of the text at its leftmost matches, the global replace returns exactly the pieces, in order. Only the matches are deleted and everything else is kept |
| Text.RemoveAllDeletesOnlyMatches | App.tsx:125 | For every text, the result of the global replace is the concatenation of the text's own pieces between matches |
| Text.Split | services/geminiService.ts:16 | `split(',')` yields at least one segment, no segment contains the separator, and joining the segments with it gives back the input |
| Text.SplitJoin | services/geminiService.ts:16 | Splitting recovers exactly the segments that were joined, when none contains the separator (the uniqueness half of `split`) |
| Json.Property | App.tsx:136 | `parsed.key` throws exactly on `null`, yields a value exactly for an object that has the key, and is `undefined` otherwise |
| GeminiService.StripHeader | services/geminiService.ts:15-16 | When a character other than a comma follows the image's first comma, the payload is the text from there to the next comma (or the end), and so differs from the image; otherwise the payload is the whole image string. The payload is never empty unless the image is |
| GeminiService.StripHeaderWithoutComma | services/geminiService.ts:16 | A string without a comma is sent unchanged |
| GeminiService.StripHeaderDataUrl | services/geminiService.ts:15-16 | For `header,payload` with a non-empty, comma-free payload, exactly the payload is sent |
| GeminiService.StripHeaderEmptySegment | services/geminiService.ts:16 | When the text after the first comma is empty up to the next comma or the end (for example a trailing comma), the whole original string is sent |
| GeminiService.StripHeaderSecondSegment | services/geminiService.ts:16 | With several commas, exactly the segment between the first and the second comma is sent |
| GeminiService.StripHeaderJpegDataUrl | services/geminiService.ts:15-16 | A `data:image/jpeg;base64,` header is removed from a concrete data URL |
| GeminiService.BuildRequest | services/geminiService.ts:16-29 | The request's payload drops the data-URL header exactly when a character other than a comma follows the image's first comma: it is then the text from there to the next comma (or the end). Otherwise the payload is the image itself. The request's prompt is the directive followed by the kind's template |
| GeminiService.Prompt | services/geminiService.ts:29 | Every prompt begins with the fixed raw-JSON directive, and the rest of it is the template of the requested kind |
| GeminiService.AnalyzeImage | services/geminiService.ts:13-43 | Fails exactly when the single provider call fails, always with the message "Falha ao analisar a imagem.". A non-empty reply text is returned as is; a missing or empty one becomes "{}". The returned text is never empty |
| GeminiService.TemplateRequestsHeadline | services/geminiService.ts:6-11 | Each kind's template names its headline key: nome_prato for FOOD, dano_detectado for VEHICLE, resumo_proposito for DOCUMENT, nome_produto for OBJECT |
| ScanFlow.SummaryKeysMatchTemplates | services/geminiService.ts:7-10 | The four summary keys and the four templates' headline keys match one to one: each key is the headline key of exactly one kind |
| ScanFlow.CleanJson | App.tsx:125 | Cleaned text contains no "```", and text without "```" passes through unchanged |
| ScanFlow.CleanJsonDeletesOnlyFences | App.tsx:125 | Cleanup deletes only fences: the reply is its first-pass pieces interleaved with "```json", that result is its second-pass pieces interleaved with "```", and the cleaned text is exactly those pieces |
| ScanFlow.FencedBlockAmidText | App.tsx:125 | Text before and after a "```json" block, such as a lead-in or a trailing newline, survives cleanup: only the two fences go, given that the surrounding text holds no backquote and the closing fence is not followed by "json" |
| ScanFlow.FenceRemovalLeavesNone | App.tsx:125 | Deleting every "```" leaves none, even where a deletion joins backquotes on either side |
| ScanFlow.CleanJsonIdempotent | App.tsx:125 | Cleaning twice is the same as cleaning once |
| ScanFlow.FencedReplyCleansToBody | App.tsx:124-126 | A body holding no "```", wrapped as "```json" + body + "```", cleans to exactly the body, the same as the bare body does |
| ScanFlow.JsonFenceRemovalBeforeClosing | App.tsx:125 | No "```json" match reaches into a closing "```" appended to any text: the first pass keeps the appended fence and treats the text before it as it would on its own |
| ScanFlow.FenceRemovalIgnoresClosing | App.tsx:125 | For any text, appending "```" does not change what the second pass leaves, even when the text ends in backquotes |
| ScanFlow.FencedReplyCleansLikeBody | App.tsx:124-126 | Any body wrapped as "```json" + body + "```" cleans to the same text as the bare body, even when the body holds fences of its own |
| ScanFlow.FirstTruthyIndex | App.tsx:136 | Finds the first key whose value is truthy: every earlier key is falsy or absent, and none is found only when every key is falsy or absent |
| ScanFlow.Summarize | App.tsx:136 | Throws exactly for `null`. Otherwise yields the value of the first of resumo_proposito, nome_prato, nome_produto, dano_detectado that is truthy, else "Resultado do Scan". The summary is always truthy |
| ScanFlow.SummaryOfPurposeOnly | App.tsx:136 | An object holding only a non-empty resumo_proposito is summarised by that text |
| ScanFlow.SummarySkipsFalsyValues | App.tsx:136 | Empty text, 0, null and false under the summary keys are skipped, giving the fallback |
| ScanFlow.StartScan | App.tsx:119-121 | The scan starts exactly when there is a non-empty image and a kind. While it is in flight, `loading` is set and the scan button is disabled |
| ScanFlow.Decode | App.tsx:123-126 | The parsed reply exists only when both the analysis and the parse of the cleaned text succeed. Otherwise it says which of the two failed |
| ScanFlow.RunScan | App.tsx:119-148 | Without an image or kind nothing changes. Otherwise `loading` ends false. A record is produced exactly when analysis and parse succeed with a non-null value; its kind is the selected type, its imageUrl the original image with header, its details the parsed value. Every failure raises the same alert |
| History.HandleScanComplete | App.tsx:268-270 | The new history is one longer, starts with the new record, and keeps the old entries after it in order |
| History.AfterScan | App.tsx:140 | History changes only through `onScanComplete` for a completed scan; every other outcome leaves it as it was |
| History.CompleteAllIsReversed | App.tsx:268-270 | After several completed scans, the history lists them most recent first, ahead of the earlier history |
| History.GuardChangesNothing | App.tsx:120 | A press without an image or a kind leaves the modal and the history unchanged |
| History.ProviderFailureKeepsHistory | App.tsx:122-147 | A provider failure raises the alert, resets `loading`, keeps the displayed result and leaves the history unchanged |
| History.ParseFailureKeepsHistory | App.tsx:122-147 | A reply that does not parse raises the alert, resets `loading` and leaves the history unchanged |
| History.NullReplyKeepsHistory | App.tsx:126-136 | A reply parsing to null replaces the shown result with null, clearing the panel. Reading its summary key then throws, so the alert is raised and the history is unchanged |
| History.SuccessPrependsRecord | App.tsx:131-140 | A successful scan adds exactly one record at the front, built from the selected kind, the full image string, the parsed reply, the given id and date, and the reply's summary |
| History.EmptyReplyRecordsFallback | services/geminiService.ts:38 | An empty reply becomes "{}". If that parses to an empty object, the scan records it with the summary "Resultado do Scan" |
| History.FencedReplyScansLikeBare | App.tsx:124-126 | A non-empty reply wrapped in a "```json" block scans exactly like the same reply without the block, whatever the reply holds |
| History.VehicleReplySummary | App.tsx:122-140 | A vehicle scan whose fence-free reply parses to an object with dano_detectado "dented bumper" adds one record, whose summary is that text and whose details keep nivel_urgencia as sent |

## Left out

- The network call to Gemini, the API key, and the model name, MIME type and temperature (services/geminiService.ts:4, 18-36). The call is the `Provider` parameter; the fixed settings are not part of `Request`.
- `Json`: numbers are reals, so `Infinity` (what `JSON.parse` makes of "1e400") has no exact value. A parser standing in for it returns some non-zero number, which has the same truthiness.
- The internals of `JSON.parse`. It is the `Parser` parameter. Duplicate keys, number precision and the like are its business.
- `Date.now()` and `toISOString()` for the record's id and date. They are passed in as strings.
- `FileReader` (how the image string is obtained), `console.error` and the rendering of `alert`. The alert appears as the `Alerted` effect carrying its message.
- Concurrency. `runScan` is modelled as one step from the state before the click to the state after the await, with `StartScan` giving the in-flight state. That the button stays disabled between the two rests on the UI event loop, which is not modelled.
- Property reads are exact only for the four summary keys: an object's own member or `undefined`. JavaScript also finds inherited prototype members and the `length` and index properties of arrays and strings. None of these has one of the four key names.
- GeminiService.TemplateRequestsHeadline: proves that each template contains its own headline key. It does not prove the absence half: that the other three templates' free text never contains that key. The absence was not proved because it would mean a character-by-character search over long string literals. The one-to-one match between keys and kinds is stated over `HeadlineKey` instead.
- The rendering of the result panel, the hero animation (components/HeroScanner.tsx), the navigation, pricing, dashboard and admin views, and the demo login users. None of these is logic.

=== FILE: gemini.dfy ===
/** The analysis provider (services/geminiService.ts): shapes one request
    from an image and a scanner kind, hands it to the external model, and
    turns the reply into text or one opaque error. The model endpoint is a
    parameter: a function from the request to its reply. */
module GeminiService {
  import opened Results
  import opened Text
  import opened Scanner

  /** The directive put in front of every template. */
  const Directive: string := "Analise esta imagem. Retorne APENAS JSON bruto sem formatação markdown. "

  /** The message of the one error every provider failure becomes. */
  const FailureMessage: string := "Falha ao analisar a imagem."

  /** What an empty reply is replaced with. */
  const EmptyReplyText: string := "{}"

  /** The reply field each template asks for that the scan summary later
      looks up. */
  function HeadlineKey(kind: ScannerType): string
  {
    match kind
    case FOOD => "nome_prato"
    case VEHICLE => "dano_detectado"
    case DOCUMENT => "resumo_proposito"
    case OBJECT => "nome_produto"
  }

  /** The instruction template for each kind, split around the headline
      key it requests: the text before the key and the text after it. */
  const FoodLead: string := "Você é um nutricionista especialista. Analise a imagem da comida/prato. Forneça uma resposta JSON com: "
  const FoodTail: string := ", calorias_estimadas, macronutrientes (proteina, carboidratos, gordura em gramas) e uma curta analise_saude (2 frases)."
  const VehicleLead: string := "Você é um mecânico automotivo especialista e perito em seguros. Analise a imagem do dano no veículo. Forneça uma resposta JSON com: "
  const VehicleTail: string := ", pecas_afetadas (array), nivel_urgencia (Baixo/Médio/Alto), estimativa_custo_reparo_brl, e acoes_recomendadas."
  const DocumentLead: string := "Você é um analista legal e de negócios especialista. Analise a imagem do documento/planilha. Forneça uma resposta JSON com: tipo_documento, "
  const DocumentTail: string := ", entidades_chave_envolvidas, datas_criticas_ou_obrigacoes, e uma analise_sentimento (Neutro/Positivo/Risco)."
  const ObjectLead: string := "Você é um avaliador especialista e buscador de produtos. Analise a imagem do objeto. Forneça uma resposta JSON com: "
  const ObjectTail: string := ", palpite_fabricante, palpite_modelo, estimativa_valor_mercado_brl, e 3_varejistas_potenciais."

  /** The template sent for each kind; total over the four kinds. */
  function Template(kind: ScannerType): string
  {
    match kind
    case FOOD => FoodLead + HeadlineKey(FOOD) + FoodTail
    case VEHICLE => VehicleLead + HeadlineKey(VEHICLE) + VehicleTail
    case DOCUMENT => DocumentLead + HeadlineKey(DOCUMENT) + DocumentTail
    case OBJECT => ObjectLead + HeadlineKey(OBJECT) + ObjectTail
  }

  /** What is sent: the image payload and the text prompt. Model name, MIME
      type and temperature are fixed settings and are not modelled. */
  datatype Request = Request(data: string, prompt: string)

  /** The external model: one call per request, returning the reply's text
      (which may be missing) or a failure with some detail. */
  type Provider = Request -> Result<Option<string>, string>

  /** The opaque error `analyzeImage` throws. */
  datatype AnalysisError = AnalysisError(message: string)

  /** `data` is the text between the first comma of `image` and the next
      comma, or the end when there is no next comma. */
  predicate IsSecondSegment(image: string, data: string)
  {
    match IndexOf(image, ',')
    case None => false
    case Some(i) =>
      var end := i + 1 + |data|;
      end <= |image| && image[i + 1..end] == data && (end == |image| || image[end] == ',')
  }

  /** The image has a comma, and a character other than a comma follows
      its first comma. */
  predicate SecondSegmentNonEmpty(image: string)
  {
    match IndexOf(image, ',')
    case None => false
    case Some(i) => i + 1 < |image| && image[i + 1] != ','
  }

  /** The base64 payload actually sent: the second comma-separated segment
      of the image string when that segment is non-empty, else the whole
      string (`image.split(',')[1] || image`). */
  function StripHeader(image: string): (data: string)
    ensures data == image || (',' in image && ',' !in data && data != "")
    ensures SecondSegmentNonEmpty(image) ==> IsSecondSegment(image, data) && data != image
    ensures !SecondSegmentNonEmpty(image) ==> data == image
  {
    var parts := Split(image, ',');
    SecondSegmentCases(image);
    if |parts| >= 2 && parts[1] != "" then
      SecondPartIsSecondSegment(image, parts);
      parts[1]
    else image
  }

  /** The second of the joined parts sits between the first comma and the
      next comma or the end, and is shorter than the image. */
  lemma SecondPartIsSecondSegment(image: string, parts: seq<string>)
    requires |parts| >= 2 && ',' !in parts[0] && Join(parts, ',') == image
    ensures IsSecondSegment(image, parts[1]) && |parts[1]| < |image| && ',' in image
  {
    var rest: string := if |parts| == 2 then [] else [','] + Join(parts[2..], ',');
    assert image == parts[0] + [','] + (parts[1] + rest) by {
      assert image == parts[0] + [','] + Join(parts[1..], ',');
      assert parts[1..][1..] == parts[2..];
    }
    SegmentAfterHeader(parts[0], parts[1], rest);
  }

  /** The text after a comma-free header and its comma, up to the next
      comma or the end, is the second segment. */
  lemma SegmentAfterHeader(header: string, data: string, rest: string)
    requires ',' !in header && (rest == [] || rest[0] == ',')
    ensures var image := header + [','] + (data + rest);
      IsSecondSegment(image, data) && |data| < |image| && ',' in image
  {
    var image := header + [','] + (data + rest);
    assert image[|header|] == ',';
    IndexOfAfterSegment(header, ',', data + rest);
    var end := |header| + 1 + |data|;
    assert image[|header| + 1..end] == data;
    assert rest != [] ==> image[end] == rest[0];
  }

  /** `split(',')[1]` is a non-empty segment exactly when a character other
      than a comma follows the first comma. */
  lemma SecondSegmentCases(image: string)
    ensures var parts := Split(image, ',');
      (|parts| >= 2 && parts[1] != "") <==> SecondSegmentNonEmpty(image)
  {
    match IndexOf(image, ',')
    case None =>
    case Some(i) =>
      var header, rest := image[..i], image[i + 1..];
      assert image == header + [','] + rest;
      SplitAfterSegment(header, ',', rest);
      if rest == [] || rest[0] == ',' {
        SplitLeadingEmpty(rest, ',');
      }
  }

  /** The full prompt: the directive, then the kind's template. */
  function Prompt(kind: ScannerType): (p: string)
    ensures StartsWith(p, Directive)
    ensures p[|Directive|..] == Template(kind)
  {
    Directive + Template(kind)
  }

  /** The request `analyzeImage` assembles: the payload with any data-URL
      header stripped, and the directive followed by the kind's template. */
  function BuildRequest(image: string, kind: ScannerType): (req: Request)
    ensures req.data == image || (',' in image && ',' !in req.data && req.data != "")
    ensures SecondSegmentNonEmpty(image) ==> IsSecondSegment(image, req.data) && req.data != image
    ensures !SecondSegmentNonEmpty(image) ==> req.data == image
    ensures StartsWith(req.prompt, Directive) && req.prompt[|Directive|..] == Template(kind)
  {
    Request(StripHeader(image), Prompt(kind))
  }

  /** `analyzeImage`: exactly one provider call; a failure becomes the one
      opaque error; a missing or empty reply text becomes `"{}"`. */
  function AnalyzeImage(image: string, kind: ScannerType, provider: Provider): (r: Result<string, AnalysisError>)
    ensures r.Err? <==> provider(BuildRequest(image, kind)).Err?
    ensures r.Err? ==> r.error == AnalysisError(FailureMessage)
    ensures r.Ok? ==> r.value != ""
    ensures var reply := provider(BuildRequest(image, kind));
      (reply.Ok? && reply.value.Some? && reply.value.value != "") ==> r == Ok(reply.value.value)
    ensures var reply := provider(BuildRequest(image, kind));
      (reply == Ok(None) || reply == Ok(Some(""))) ==> r == Ok(EmptyReplyText)
  {
    match provider(BuildRequest(image, kind))
    case Err(_) => Err(AnalysisError(FailureMessage))
    case Ok(text) => Ok(if text.Some? && text.value != "" then text.value else EmptyReplyText)
  }

  // Payload shaping

  /** A string without a comma is sent unchanged. */
  lemma StripHeaderWithoutComma(image: string)
    ensures ',' !in image ==> StripHeader(image) == image
  {
  }

  /** `header,payload` with a non-empty, comma-free payload sends exactly
      the payload. */
  lemma StripHeaderDataUrl(header: string, payload: string)
    requires ',' !in header && ',' !in payload
    requires payload != ""
    ensures StripHeader(header + [','] + payload) == payload
  {
  }

  /** When nothing stands between the first comma and the next comma (or
      the end), the whole original string is sent, header included. */
  lemma StripHeaderEmptySegment(header: string, rest: string)
    requires ',' !in header
    requires rest == [] || rest[0] == ','
    ensures StripHeader(header + [','] + rest) == header + [','] + rest
  {
    SplitAfterSegment(header, ',', rest);
    SplitLeadingEmpty(rest, ',');
  }

  /** With several commas, only the segment between the first and the
      second comma is sent. */
  lemma StripHeaderSecondSegment(header: string, payload: string, rest: string)
    requires ',' !in header && ',' !in payload
    requires payload != ""
    ensures StripHeader(header + [','] + payload + [','] + rest) == payload
  {
    var s := header + [','] + payload + [','] + rest;
    assert s == header + [','] + (payload + [','] + rest);
    SplitAfterSegment(header, ',', payload + [','] + rest);
    SplitAfterSegment(payload, ',', rest);
  }

  /** The usual browser data URL: the base64 text after the header is sent. */
  lemma StripHeaderJpegDataUrl()
    ensures StripHeader("data:image/jpeg;base64,/9j/4AAQ") == "/9j/4AAQ"
  {
    StripHeaderDataUrl("data:image/jpeg;base64", "/9j/4AAQ");
    assert "data:image/jpeg;base64" + [','] + "/9j/4AAQ" == "data:image/jpeg;base64,/9j/4AAQ";
  }

  // Templates

  /** Each template asks for its headline key by name. */
  lemma TemplateRequestsHeadline(kind: ScannerType)
    ensures Occurs(HeadlineKey(kind), Template(kind))
  {
    match kind
    case FOOD => OccursInMiddle(FoodLead, HeadlineKey(FOOD), FoodTail);
    case VEHICLE => OccursInMiddle(VehicleLead, HeadlineKey(VEHICLE), VehicleTail);
    case DOCUMENT => OccursInMiddle(DocumentLead, HeadlineKey(DOCUMENT), DocumentTail);
    case OBJECT => OccursInMiddle(ObjectLead, HeadlineKey(OBJECT), ObjectTail);
  }
}

=== FILE: history.dfy ===
/** The session history kept by the App component (App.tsx,
    `handleScanComplete`), and what one scan does to it. */
module History {
  import opened Results
  import opened Text
  import opened Json
  import opened Scanner
  import opened GeminiService
  import opened ScanFlow

  /** `setHistory([result, ...history])`: the new record in front, the old
      entries after it in their old order. */
  function HandleScanComplete(history: seq<ScanRecord>, record: ScanRecord): (h: seq<ScanRecord>)
    ensures |h| == |history| + 1
    ensures h[0] == record
    ensures h[1..] == history
  {
    [record] + history
  }

  /** The history after a press of the scan button: `onScanComplete` is
      called only for a completed scan. */
  function AfterScan(history: seq<ScanRecord>, o: Outcome): (h: seq<ScanRecord>)
    ensures o.effect.Completed? ==> h == HandleScanComplete(history, o.effect.record)
    ensures !o.effect.Completed? ==> h == history
  {
    match o.effect
    case Completed(record) => HandleScanComplete(history, record)
    case _ => history
  }

  function Reverse<T>(s: seq<T>): seq<T>
  {
    if |s| == 0 then [] else Reverse(s[1..]) + [s[0]]
  }

  /** The history after several scans complete, in the order given. */
  function CompleteAll(history: seq<ScanRecord>, records: seq<ScanRecord>): seq<ScanRecord>
    decreases |records|
  {
    if |records| == 0 then history
    else CompleteAll(HandleScanComplete(history, records[0]), records[1..])
  }

  /** Most recent first: after several completions the new records stand in
      reverse completion order before the old history. */
  lemma {:induction false} CompleteAllIsReversed(history: seq<ScanRecord>, records: seq<ScanRecord>)
    ensures CompleteAll(history, records) == Reverse(records) + history
    decreases |records|
  {
    if |records| > 0 {
      CompleteAllIsReversed([records[0]] + history, records[1..]);
      assert Reverse(records[1..]) + ([records[0]] + history)
          == (Reverse(records[1..]) + [records[0]]) + history;
    }
  }

  // One scan, seen from the history

  /** A press without an image or a scanner kind changes nothing. */
  lemma GuardChangesNothing(history: seq<ScanRecord>, m: Modal, kind: Option<ScannerType>,
                            provider: Provider, parse: Parser, id: string, date: string)
    requires !HasImage(m) || kind.None?
    ensures RunScan(m, kind, provider, parse, id, date).modal == m
    ensures AfterScan(history, RunScan(m, kind, provider, parse, id, date)) == history
  {
  }

  /** A provider failure alerts, clears `loading`, keeps the display and
      leaves the history as it was. */
  lemma ProviderFailureKeepsHistory(history: seq<ScanRecord>, m: Modal, kind: ScannerType,
                                    provider: Provider, parse: Parser, id: string, date: string)
    requires HasImage(m)
    requires provider(BuildRequest(m.image.value, kind)).Err?
    ensures var o := RunScan(m, Some(kind), provider, parse, id, date);
      && o.effect == Alerted(AlertMessage, AnalysisFailed(AnalysisError(FailureMessage)))
      && o.modal == m.(loading := false)
      && AfterScan(history, o) == history
  {
  }

  /** A reply that does not parse alerts and leaves the history as it was. */
  lemma ParseFailureKeepsHistory(history: seq<ScanRecord>, m: Modal, kind: ScannerType,
                                 provider: Provider, parse: Parser, id: string, date: string)
    requires HasImage(m)
    requires AnalyzeImage(m.image.value, kind, provider).Ok?
    requires parse(CleanJson(AnalyzeImage(m.image.value, kind, provider).value)).None?
    ensures var o := RunScan(m, Some(kind), provider, parse, id, date);
      && o.effect == Alerted(AlertMessage, ParseFailed)
      && o.modal == m.(loading := false)
      && AfterScan(history, o) == history
  {
  }

  /** A reply of JSON `null` replaces the shown result, but reading its
      first summary key throws, so the scan alerts and the history is unchanged. */
  lemma NullReplyKeepsHistory(history: seq<ScanRecord>, m: Modal, kind: ScannerType,
                              provider: Provider, parse: Parser, id: string, date: string)
    requires HasImage(m)
    requires Decode(m.image.value, kind, provider, parse) == Ok(Null)
    ensures var o := RunScan(m, Some(kind), provider, parse, id, date);
      && o.effect.Alerted? && o.effect.error.SummaryFailed?
      && o.modal == m.(loading := false, shown := Null)
      && AfterScan(history, o) == history
  {
  }

  /** A successful scan prepends exactly one record, built from the chosen
      kind, the original image string (header included) and the parsed reply. */
  lemma SuccessPrependsRecord(history: seq<ScanRecord>, m: Modal, kind: ScannerType,
                              provider: Provider, parse: Parser, id: string, date: string, parsed: Json)
    requires HasImage(m)
    requires Decode(m.image.value, kind, provider, parse) == Ok(parsed)
    requires !parsed.Null?
    ensures var h := AfterScan(history, RunScan(m, Some(kind), provider, parse, id, date));
      && |h| == |history| + 1
      && h[1..] == history
      && h[0].kind == kind && h[0].imageUrl == m.image.value && h[0].details == parsed
      && h[0].id == id && h[0].date == date
      && Summarize(parsed) == Ok(h[0].summary)
  {
  }

  /** An empty reply becomes `"{}"`, which parses to an empty object: the
      scan completes with an empty record summarised by the fallback text. */
  lemma EmptyReplyRecordsFallback(history: seq<ScanRecord>, m: Modal, kind: ScannerType,
                                  provider: Provider, parse: Parser, id: string, date: string)
    requires HasImage(m)
    requires provider(BuildRequest(m.image.value, kind)) == Ok(Some(""))
    requires parse("{}") == Some(Object(map[]))
    ensures var h := AfterScan(history, RunScan(m, Some(kind), provider, parse, id, date));
      && |h| == |history| + 1
      && h[0].details == Object(map[])
      && h[0].summary == String(SummaryFallback)
  {
  }

  /** A reply wrapped in a "```json" block scans exactly like the bare
      reply, whatever the wrapped text holds, as long as it is not empty. */
  lemma FencedReplyScansLikeBare(m: Modal, kind: ScannerType, fenced: Provider, bare: Provider,
                                 parse: Parser, id: string, date: string, body: string)
    requires HasImage(m)
    requires body != ""
    requires fenced(BuildRequest(m.image.value, kind)) == Ok(Some(JsonFence + body + Fence))
    requires bare(BuildRequest(m.image.value, kind)) == Ok(Some(body))
    ensures RunScan(m, Some(kind), fenced, parse, id, date) == RunScan(m, Some(kind), bare, parse, id, date)
  {
    FencedReplyCleansLikeBody(body);
    assert JsonFence + body + Fence != "";
  }

  /** A vehicle reply as the vehicle template asks for it. */
  const VehicleReply: Json := Object(map[
    "dano_detectado" := String("dented bumper"),
    "pecas_afetadas" := Array([String("bumper")]),
    "nivel_urgencia" := String("Médio"),
    "estimativa_custo_reparo_brl" := Number(1200.0),
    "acoes_recomendadas" := String("repair")])

  lemma VehicleReplySummarized()
    ensures Summarize(VehicleReply) == Ok(String("dented bumper"))
  {
  }

  /** A vehicle scan whose reply parses to `VehicleReply` records one
      entry: the damage description is its summary, and its details keep
      the urgency as sent. */
  lemma VehicleReplySummary(history: seq<ScanRecord>, m: Modal, provider: Provider, parse: Parser,
                            id: string, date: string, text: string)
    requires HasImage(m)
    requires text != "" && !Occurs(Fence, text)
    requires provider(BuildRequest(m.image.value, VEHICLE)) == Ok(Some(text))
    requires parse(text) == Some(VehicleReply)
    ensures var h := AfterScan(history, RunScan(m, Some(VEHICLE), provider, parse, id, date));
      && |h| == |history| + 1
      && h[0].summary == String("dented bumper")
      && h[0].details.Object? && h[0].details.fields["nivel_urgencia"] == String("Médio")
  {
    VehicleReplySummarized();
    assert Decode(m.image.value, VEHICLE, provider, parse) == Ok(VehicleReply);
    assert VehicleReply.fields["nivel_urgencia"] == String("Médio");
  }
}

=== FILE: json.dfy ===
/** The values `JSON.parse` can produce, with the two JavaScript behaviours
    the pipeline depends on: truthiness (what `a || b` tests) and reading a
    named property (`v.key`). */
module Json {
  import opened Results

  /** A parsed JSON value. A number is the value the parser produced,
      kept as a real; for the truthiness test only its being zero matters. */
  datatype Json =
    | Null
    | Bool(b: bool)
    | Number(num: real)
    | String(str: string)
    | Array(items: seq<Json>)
    | Object(fields: map<string, Json>)

  /** JavaScript truthiness of a parsed value: `null`, `false`, `0` and the
      empty string are falsy; every array and object is truthy. */
  predicate Truthy(v: Json)
  {
    match v
    case Null => false
    case Bool(b) => b
    case Number(n) => n != 0.0
    case String(s) => s != ""
    case Array(_) => true
    case Object(_) => true
  }

  /** Reading a property of `null` throws. */
  datatype TypeError = CannotReadPropertyOfNull(key: string)

  /** `v.key` for one of the four summary keys: an own member of an
      object, `undefined` (`None`) for every other non-null value, and a
      `TypeError` on `null`. Other names can also reach inherited members or
      the `length` and index properties of arrays and strings; no summary
      key is such a name. */
  function Property(v: Json, key: string): (r: Result<Option<Json>, TypeError>)
    ensures r.Err? <==> v.Null?
    ensures r.Ok? && r.value.Some? <==> v.Object? && key in v.fields
    ensures r.Ok? && r.value.Some? ==> r.value.value == v.fields[key]
  {
    match v
    case Null => Err(CannotReadPropertyOfNull(key))
    case Object(fields) => Ok(if key in fields then Some(fields[key]) else None)
    case _ => Ok(None)
  }
}

=== FILE: results.dfy ===
/** Failure-carrying wrappers used across the model: `Option` stands for a
    value that may be absent (JavaScript `undefined`), `Result` for a call
    that either returns or throws. */
module Results {

  datatype Option<+T> = None | Some(value: T)

  datatype Result<+T, +E> = Ok(value: T) | Err(error: E)
}

=== FILE: scanflow.dfy ===
/** One press of the scan button in the scanner modal (App.tsx,
    `ScannerModal.runScan`): guard, provider call, fence cleanup, parse,
    summary, and either a finished record or an alert. */
module ScanFlow {
  import opened Results
  import opened Text
  import opened Json
  import opened Scanner
  import opened GeminiService

  // Fence cleanup

  const Fence: string := "```"
  const JsonFence: string := "```json"

  /** The reply with every "```json" deleted and then every "```" deleted. */
  function CleanJson(text: string): (clean: string)
    ensures !Occurs(Fence, clean)
    ensures !Occurs(Fence, text) ==> clean == text
  {
    var once := RemoveAll(text, JsonFence);
    FenceRemovalLeavesNone(once);
    NoJsonFenceWithoutFence(text);
    RemoveAll(once, Fence)
  }

  lemma NoJsonFenceWithoutFence(s: string)
    ensures !Occurs(Fence, s) ==> !Occurs(JsonFence, s)
  {
  }

  /** Cleanup deletes the fences and keeps everything else: the reply is
      its first-pass pieces interleaved with "```json", the text those
      pieces make up is its second-pass pieces interleaved with "```", and
      the cleaned text is exactly the second-pass pieces in order. */
  lemma CleanJsonDeletesOnlyFences(text: string)
    ensures var once := Pieces(text, JsonFence);
      var twice := Pieces(Concat(once), Fence);
      && Interleave(once, JsonFence) == text
      && Interleave(twice, Fence) == Concat(once)
      && CleanJson(text) == Concat(twice)
  {
    RemoveAllDeletesOnlyMatches(text, JsonFence);
    RemoveAllDeletesOnlyMatches(RemoveAll(text, JsonFence), Fence);
  }

  /** Text free of backquotes has no match of a pattern that starts with one,
      and putting it in front of text without a match creates none. */
  lemma {:induction false} TickFreePrefix(q: string, a: string, b: string)
    requires |q| > 0 && q[0] == '`' && '`' !in a
    requires !Occurs(q, b)
    ensures !Occurs(q, a + b)
    decreases |a|
  {
    if |a| > 0 {
      assert (a + b)[0] == a[0];
      assert (a + b)[1..] == a[1..] + b;
      TickFreePrefix(q, a[1..], b);
    } else {
      assert a + b == b;
    }
  }

  /** A closing fence followed by backquote-free text that does not begin
      with "json" holds no "```json". */
  lemma NoJsonFenceAtClosing(after: string)
    requires '`' !in after
    requires !StartsWith(after, "json")
    ensures !Occurs(JsonFence, Fence + after)
  {
    var x := Fence + after;
    if |x| >= |JsonFence| {
      assert x[3..7] == after[..4];
      assert JsonFence[3..7] == "json";
      assert x[..7][3..7] == x[3..7];
    }
    assert !StartsWith(x, JsonFence);
    assert x[1..] == "``" + after;
    if |after| > 0 {
      assert x[1..][2] == after[0];
      assert (x[1..][1..])[1] == after[0];
    }
    assert !StartsWith(x[1..], JsonFence);
    assert x[1..][1..] == "`" + after;
    assert !StartsWith(x[1..][1..], JsonFence);
    assert x[1..][1..][1..] == after;
    NoMatchInShorter(JsonFence, "");
    TickFreePrefix(JsonFence, after, "");
    assert after + "" == after;
    assert !Occurs(JsonFence, x[1..][1..][1..]);
    assert !Occurs(JsonFence, x[1..][1..]);
    assert !Occurs(JsonFence, x[1..]);
  }

  /** Text around a "```json" block survives cleanup: only the two fences
      are deleted, whatever precedes the block and whatever follows it
      (a trailing newline, say), as long as that text holds no backquote
      and the closing fence is not itself followed by "json". */
  lemma FencedBlockAmidText(before: string, body: string, after: string)
    requires '`' !in before && '`' !in body && '`' !in after
    requires !StartsWith(after, "json")
    ensures CleanJson(before + JsonFence + body + Fence + after) == before + body + after
  {
    OpeningFenceRemoved(before, body, after);
    ClosingFenceRemovedAmid(before, body, after);
  }

  /** The first pass deletes just the opening "```json". */
  lemma OpeningFenceRemoved(before: string, body: string, after: string)
    requires '`' !in before && '`' !in body && '`' !in after
    requires !StartsWith(after, "json")
    ensures RemoveAll(before + JsonFence + body + Fence + after, JsonFence) == before + body + Fence + after
  {
    var rest := body + Fence + after;
    var text := before + JsonFence + body + Fence + after;
    OpeningFenceIsOnlyMatch(before, body, after);
    assert text == before + JsonFence + rest;
    InterleavePair(before, JsonFence, rest);
    RemoveAllKeepsPieces(text, JsonFence, [before, rest]);
    ConcatPair(before, rest);
  }

  lemma OpeningFenceIsOnlyMatch(before: string, body: string, after: string)
    requires '`' !in before && '`' !in body && '`' !in after
    requires !StartsWith(after, "json")
    ensures LeftmostPieces([before, body + Fence + after], JsonFence)
  {
    assert JsonFence[..|JsonFence| - 1] == "```jso";
    NoMatchInShorter(JsonFence, "```jso");
    TickFreePrefix(JsonFence, before, "```jso");
    NoJsonFenceAtClosing(after);
    TickFreePrefix(JsonFence, body, Fence + after);
    assert body + (Fence + after) == body + Fence + after;
  }

  /** The second pass deletes just the closing "```". */
  lemma ClosingFenceRemovedAmid(before: string, body: string, after: string)
    requires '`' !in before && '`' !in body && '`' !in after
    ensures RemoveAll(before + body + Fence + after, Fence) == before + body + after
  {
    assert Fence[..|Fence| - 1] == "``";
    NoMatchInShorter(Fence, "``");
    assert '`' !in before + body;
    TickFreePrefix(Fence, before + body, "``");
    NoMatchInShorter(Fence, "");
    TickFreePrefix(Fence, after, "");
    assert after + "" == after;
    InterleavePair(before + body, Fence, after);
    RemoveAllKeepsPieces(before + body + Fence + after, Fence, [before + body, after]);
    ConcatPair(before + body, after);
  }

  /** A backquote kept by fence removal is never followed by two more
      backquotes in the output: the next two input characters would have
      made a fence with it. */
  lemma KeptTickNotFollowedByTicks(s: string)
    requires |s| > 0 && s[0] == '`'
    requires !StartsWith(s, Fence)
    ensures !StartsWith(RemoveAll(s[1..], Fence), "``")
  {
    var t := s[1..];
    if |t| >= 3 {
      assert s[..3] == [s[0], t[0], t[1]];
    }
    assert !StartsWith(t, Fence);
    if |t| > 0 {
      assert RemoveAll(t, Fence) == [t[0]] + RemoveAll(t[1..], Fence);
    }
    if |t| > 0 && t[0] == '`' {
      var u := t[1..];
      if |u| >= 2 {
        assert s[..3] == [s[0], t[0], u[0]];
      }
      assert !StartsWith(u, Fence);
      if |u| > 0 {
        assert |s| >= 3 && s[..3] == [s[0], t[0], u[0]];
        assert u[0] != '`';
        assert RemoveAll(t, Fence) == [t[0]] + ([u[0]] + RemoveAll(u[1..], Fence));
        assert RemoveAll(t, Fence)[1] == u[0];
        assert "``"[1] == '`';
      } else {
        assert RemoveAll(t, Fence) == [t[0]];
      }
    } else if |t| > 0 {
      assert "``"[0] == '`';
    }
  }

  /** Deleting every "```" leaves none behind, even where a deletion joins
      the text on either side of it. */
  lemma {:induction false} FenceRemovalLeavesNone(s: string)
    ensures !Occurs(Fence, RemoveAll(s, Fence))
    decreases |s|
  {
    if StartsWith(s, Fence) {
      FenceRemovalLeavesNone(s[|Fence|..]);
    } else if |s| > 0 {
      var rest := RemoveAll(s[1..], Fence);
      FenceRemovalLeavesNone(s[1..]);
      var r := [s[0]] + rest;
      assert r[1..] == rest;
      if s[0] == '`' {
        KeptTickNotFollowedByTicks(s);
        if |rest| >= 2 {
          assert r[..3] == [s[0]] + rest[..2];
        }
      }
      assert !StartsWith(r, Fence);
    }
  }

  /** A closing fence after text without fences is removed and nothing else. */
  lemma ClosingFenceRemoved(b: string)
    requires !Occurs(Fence, b)
    ensures RemoveAll(b + Fence, Fence) == b
  {
    FenceRemovalIgnoresClosing(b);
  }

  /** No "```json" straddles the end of fence-free text and a closing fence. */
  lemma {:induction false} NoJsonFenceBeforeClosing(b: string)
    requires !Occurs(Fence, b)
    ensures !Occurs(JsonFence, b + Fence)
    decreases |b|
  {
    var s := b + Fence;
    if |b| >= 3 {
      assert s[..3] == b[..3];
      assert JsonFence[..3] == Fence;
      if |s| >= |JsonFence| {
        assert s[..|JsonFence|][..3] == s[..3];
      }
    }
    assert !StartsWith(s, JsonFence);
    if |b| == 0 {
      NoMatchInShorter(JsonFence, s);
    } else {
      assert s[1..] == b[1..] + Fence;
      NoJsonFenceBeforeClosing(b[1..]);
    }
  }

  /** No "```json" match reaches into a closing fence, since a match ends
      in 'n': appending the fence leaves the first pass's work on the text
      before it as it was. */
  lemma {:induction false} JsonFenceRemovalBeforeClosing(b: string)
    ensures RemoveAll(b + Fence, JsonFence) == RemoveAll(b, JsonFence) + Fence
    decreases |b|
  {
    var s := b + Fence;
    if StartsWith(b, JsonFence) {
      assert s[..|JsonFence|] == b[..|JsonFence|];
      assert s[|JsonFence|..] == b[|JsonFence|..] + Fence;
      JsonFenceRemovalBeforeClosing(b[|JsonFence|..]);
    } else {
      assert !StartsWith(s, JsonFence) by {
        if |b| >= |JsonFence| {
          assert s[..|JsonFence|] == b[..|JsonFence|];
        } else if |s| >= |JsonFence| {
          assert s[6] == Fence[6 - |b|] == '`';
          assert JsonFence[6] == 'n';
        }
      }
      if |b| == 0 {
        assert s == Fence && b == "";
        NoMatchInShorter(JsonFence, Fence);
        NoMatchInShorter(JsonFence, b);
      } else {
        assert s[1..] == b[1..] + Fence;
        JsonFenceRemovalBeforeClosing(b[1..]);
        assert RemoveAll(b, JsonFence) == [b[0]] + RemoveAll(b[1..], JsonFence);
      }
    }
  }

  /** Appending a fence does not change what the second pass leaves: the
      fence is deleted on its own or together with backquotes before it,
      whose count it leaves the same modulo three. */
  lemma {:induction false} FenceRemovalIgnoresClosing(x: string)
    ensures RemoveAll(x + Fence, Fence) == RemoveAll(x, Fence)
    decreases |x|
  {
    var s := x + Fence;
    if StartsWith(x, Fence) {
      assert s[..3] == x[..3];
      assert s[3..] == x[3..] + Fence;
      FenceRemovalIgnoresClosing(x[3..]);
    } else if StartsWith(s, Fence) {
      forall j | 0 <= j < |x|
        ensures s[3..][j] == x[j]
      {
        assert s[..3][j] == Fence[j];
      }
      assert s[3..] == x;
    } else {
      assert s[1..] == x[1..] + Fence;
      FenceRemovalIgnoresClosing(x[1..]);
      assert RemoveAll(x, Fence) == [x[0]] + RemoveAll(x[1..], Fence);
    }
  }

  /** A reply wrapped in a "```json" … "```" block cleans exactly as the
      text inside does, whatever that text holds. */
  lemma FencedReplyCleansLikeBody(body: string)
    ensures CleanJson(JsonFence + body + Fence) == CleanJson(body)
  {
    var s := JsonFence + body + Fence;
    assert s[..|JsonFence|] == JsonFence;
    assert s[|JsonFence|..] == body + Fence;
    JsonFenceRemovalBeforeClosing(body);
    FenceRemovalIgnoresClosing(RemoveAll(body, JsonFence));
  }

  /** Cleanup is idempotent. */
  lemma CleanJsonIdempotent(text: string)
    ensures CleanJson(CleanJson(text)) == CleanJson(text)
  {
  }

  /** A reply wrapped in a "```json" … "```" block cleans to exactly the
      text inside, so it parses as the unwrapped reply would. */
  lemma FencedReplyCleansToBody(body: string)
    requires !Occurs(Fence, body)
    ensures CleanJson(JsonFence + body + Fence) == body
    ensures CleanJson(body) == body
  {
    var s := JsonFence + body + Fence;
    assert s[..|JsonFence|] == JsonFence;
    assert s[|JsonFence|..] == body + Fence;
    NoJsonFenceBeforeClosing(body);
    ClosingFenceRemoved(body);
  }

  // Summary

  /** The keys probed for the summary, in priority order. */
  const SummaryKeys: seq<string> := ["resumo_proposito", "nome_prato", "nome_produto", "dano_detectado"]

  /** The summary when no probed key holds a truthy value. */
  const SummaryFallback: string := "Resultado do Scan"

  /** Reading `key` from `v` succeeds and yields a truthy value. */
  predicate TruthyAt(v: Json, key: string)
  {
    var p := Property(v, key);
    p.Ok? && p.value.Some? && Truthy(p.value.value)
  }

  /** The position of the first key whose value in `v` is truthy. */
  function FirstTruthyIndex(v: Json, keys: seq<string>): (r: Option<nat>)
    ensures r.None? <==> forall i :: 0 <= i < |keys| ==> !TruthyAt(v, keys[i])
    ensures r.Some? ==> r.value < |keys| && TruthyAt(v, keys[r.value])
    ensures r.Some? ==> forall j :: 0 <= j < r.value ==> !TruthyAt(v, keys[j])
    decreases |keys|
  {
    if |keys| == 0 then None
    else if TruthyAt(v, keys[0]) then Some(0)
    else
      match FirstTruthyIndex(v, keys[1..])
      case None => None
      case Some(i) => Some(i + 1)
  }

  /** `parsed.resumo_proposito || parsed.nome_prato || parsed.nome_produto
      || parsed.dano_detectado || "Resultado do Scan"`: the first truthy
      value among the four keys, else the fallback text; reading the first
      key of `null` throws. */
  function Summarize(parsed: Json): (r: Result<Json, TypeError>)
    ensures r.Err? <==> parsed.Null?
    ensures r.Ok? ==> Truthy(r.value)
    ensures forall i :: 0 <= i < |SummaryKeys| && TruthyAt(parsed, SummaryKeys[i]) ==>
              (forall j :: 0 <= j < i ==> !TruthyAt(parsed, SummaryKeys[j])) ==>
              r == Ok(parsed.fields[SummaryKeys[i]])
    ensures (!parsed.Null? && forall i :: 0 <= i < |SummaryKeys| ==> !TruthyAt(parsed, SummaryKeys[i])) ==>
              r == Ok(String(SummaryFallback))
  {
    if parsed.Null? then Err(CannotReadPropertyOfNull(SummaryKeys[0]))
    else
      match FirstTruthyIndex(parsed, SummaryKeys)
      case Some(i) => Ok(parsed.fields[SummaryKeys[i]])
      case None => Ok(String(SummaryFallback))
  }

  /** A reply holding only a non-empty purpose summary is summarised by it. */
  lemma SummaryOfPurposeOnly(purpose: string)
    requires purpose != ""
    ensures Summarize(Object(map["resumo_proposito" := String(purpose)])) == Ok(String(purpose))
  {
  }

  /** Empty text, zero, `false` and `null` under the probed keys are skipped
      like absent keys, leaving the fallback. */
  lemma SummarySkipsFalsyValues()
    ensures Summarize(Object(map[
              "resumo_proposito" := String(""),
              "nome_prato" := Number(0.0),
              "nome_produto" := Null,
              "dano_detectado" := Bool(false)])) == Ok(String(SummaryFallback))
  {
  }

  /** Every key the summary probes is the headline key of exactly one
      template, and every template's headline key is probed. */
  lemma SummaryKeysMatchTemplates()
    ensures forall kind: ScannerType :: HeadlineKey(kind) in SummaryKeys
    ensures forall i :: 0 <= i < |SummaryKeys| ==>
              exists kind: ScannerType :: HeadlineKey(kind) == SummaryKeys[i]
    ensures forall a: ScannerType, b: ScannerType :: HeadlineKey(a) == HeadlineKey(b) ==> a == b
  {
    assert HeadlineKey(DOCUMENT) == SummaryKeys[0];
    assert HeadlineKey(FOOD) == SummaryKeys[1];
    assert HeadlineKey(OBJECT) == SummaryKeys[2];
    assert HeadlineKey(VEHICLE) == SummaryKeys[3];
  }

  // The scan itself

  /** The modal's state: the chosen image (a data URL), whether a scan is
      in flight, and the parsed reply on display (`null` before any). */
  datatype Modal = Modal(image: Option<string>, loading: bool, shown: Json)

  /** `image` is truthy: present and not the empty string. */
  predicate HasImage(m: Modal)
  {
    m.image.Some? && m.image.value != ""
  }

  /** The scan button accepts clicks only with an image and no scan in flight. */
  predicate ScanButtonEnabled(m: Modal)
  {
    HasImage(m) && !m.loading
  }

  /** Why a scan failed; all three show the same alert. */
  datatype ScanError =
    | AnalysisFailed(cause: AnalysisError)
    | ParseFailed
    | SummaryFailed(typeError: TypeError)

  const AlertMessage: string := "O escaneamento falhou. Por favor, tente novamente."

  /** What a press of the button did beyond the modal's own state. */
  datatype Effect =
    | Skipped
    | Completed(record: ScanRecord)
    | Alerted(message: string, error: ScanError)

  datatype Outcome = Outcome(modal: Modal, effect: Effect)

  /** `JSON.parse`: the parsed value, or `None` for a syntax error. */
  type Parser = string -> Option<Json>

  /** The state while the provider call is awaited, or `None` when the
      guard returns early for want of an image or a scanner kind. */
  function StartScan(m: Modal, kind: Option<ScannerType>): (r: Option<Modal>)
    ensures r.Some? <==> HasImage(m) && kind.Some?
    ensures r.Some? ==> r.value.loading && !ScanButtonEnabled(r.value)
    ensures r.Some? ==> r.value.image == m.image && r.value.shown == m.shown
  {
    if !HasImage(m) || kind.None? then None
    else Some(m.(loading := true))
  }

  /** The parsed reply of a scan: the provider's text, cleaned and parsed,
      or the first step that failed. */
  function Decode(image: string, kind: ScannerType, provider: Provider, parse: Parser): (r: Result<Json, ScanError>)
    ensures r.Err? && r.error.AnalysisFailed? <==> AnalyzeImage(image, kind, provider).Err?
    ensures r.Err? && r.error.ParseFailed? <==>
              AnalyzeImage(image, kind, provider).Ok? && parse(CleanJson(AnalyzeImage(image, kind, provider).value)).None?
    ensures r.Ok? ==> r == Ok(parse(CleanJson(AnalyzeImage(image, kind, provider).value)).value)
    ensures !(r.Err? && r.error.SummaryFailed?)
  {
    match AnalyzeImage(image, kind, provider)
    case Err(e) => Err(AnalysisFailed(e))
    case Ok(text) =>
      match parse(CleanJson(text))
      case None => Err(ParseFailed)
      case Some(v) => Ok(v)
  }

  /** `runScan`: the guard, the awaited analysis, then either a record for
      `onScanComplete` or the alert; `loading` is cleared on every path
      that set it, and the parsed value replaces the shown result as soon as
      it exists. */
  function RunScan(m: Modal, kind: Option<ScannerType>, provider: Provider, parse: Parser, id: string, date: string): (o: Outcome)
    ensures !(HasImage(m) && kind.Some?) ==> o == Outcome(m, Skipped)
    ensures HasImage(m) && kind.Some? ==> !o.modal.loading && o.modal.image == m.image && !o.effect.Skipped?
    ensures o.effect.Alerted? ==> o.effect.message == AlertMessage
    ensures o.effect.Completed? <==>
              HasImage(m) && kind.Some? && Decode(m.image.value, kind.value, provider, parse).Ok?
              && !Decode(m.image.value, kind.value, provider, parse).value.Null?
    ensures o.effect.Completed? ==>
              var r := o.effect.record;
              && r.id == id && r.date == date
              && r.kind == kind.value
              && r.imageUrl == m.image.value
              && Decode(m.image.value, kind.value, provider, parse) == Ok(r.details)
              && Summarize(r.details) == Ok(r.summary)
              && o.modal.shown == r.details
    ensures o.effect.Alerted? && !o.effect.error.SummaryFailed? ==> o.modal.shown == m.shown
    ensures o.effect.Alerted? && o.effect.error.SummaryFailed? ==> o.modal.shown == Null
  {
    match StartScan(m, kind)
    case None => Outcome(m, Skipped)
    case Some(busy) =>
      var settled := busy.(loading := false);
      match Decode(m.image.value, kind.value, provider, parse)
      case Err(e) => Outcome(settled, Alerted(AlertMessage, e))
      case Ok(parsed) =>
        var shown := settled.(shown := parsed);
        match Summarize(parsed)
        case Err(e) => Outcome(shown, Alerted(AlertMessage, SummaryFailed(e)))
        case Ok(summary) =>
          Outcome(shown, Completed(ScanRecord(id, date, kind.value, m.image.value, summary, parsed)))
  }
}

=== FILE: scanner.dfy ===
/** The records of the scan pipeline: the four scanner kinds and the
    history entry built from a successful scan. */
module Scanner {
  import opened Json

  /** Which analysis the user asked for; it selects the instruction template. */
  datatype ScannerType = FOOD | VEHICLE | DOCUMENT | OBJECT

  /** One history entry. `summary` is declared a string but holds whatever
      value the summary expression produced, so it is kept as a `Json`;
      `details` is the parsed reply, whatever its shape. */
  datatype ScanRecord = ScanRecord(
    id: string,
    date: string,
    kind: ScannerType,
    imageUrl: string,
    summary: Json,
    details: Json)
}

=== FILE: text.dfy ===
/** The two JavaScript string operations the scan pipeline calls, `split`
    on one character and a global literal `replace(/p/g, '')`, with the
    helpers the model needs to state them: prefix, occurrence, first index,
    join and concatenation. */
module Text {
  import opened Results

  /** `p` is a prefix of `s`. */
  predicate StartsWith(s: string, p: string)
  {
    |p| <= |s| && s[..|p|] == p
  }

  /** `p` occurs somewhere in `s` (`s.includes(p)`). */
  predicate Occurs(p: string, s: string)
    decreases |s|
  {
    StartsWith(s, p) || (|s| > 0 && Occurs(p, s[1..]))
  }

  lemma NoMatchInShorter(p: string, s: string)
    requires |s| < |p|
    ensures !Occurs(p, s)
  {
  }

  /** Whatever surrounds it, `p` occurs in `a + p + b`. */
  lemma {:induction false} OccursInMiddle(a: string, p: string, b: string)
    ensures Occurs(p, a + p + b)
    decreases |a|
  {
    var s := a + p + b;
    if |a| == 0 {
      assert s[..|p|] == p;
    } else {
      OccursInMiddle(a[1..], p, b);
      assert s[1..] == a[1..] + p + b;
    }
  }

  /** `s` with every occurrence of `p` deleted, scanning left to right and
      resuming after each deleted occurrence: what `s.replace(/p/g, '')`
      returns for a pattern `p` with no regular-expression metacharacters. */
  function RemoveAll(s: string, p: string): (r: string)
    requires |p| > 0
    ensures |r| <= |s|
    ensures !Occurs(p, s) ==> r == s
    ensures Occurs(p, s) ==> |r| < |s|
    decreases |s|
  {
    if StartsWith(s, p) then RemoveAll(s[|p|..], p)
    else if |s| == 0 then s
    else [s[0]] + RemoveAll(s[1..], p)
  }

  /** The pieces joined with `p` between neighbours. */
  function Interleave(pieces: seq<string>, p: string): string
    requires |pieces| >= 1
  {
    if |pieces| == 1 then pieces[0] else pieces[0] + p + Interleave(pieces[1..], p)
  }

  /** The pieces one after the other. */
  function Concat(pieces: seq<string>): string
  {
    if |pieces| == 0 then "" else pieces[0] + Concat(pieces[1..])
  }

  /** The separators between `pieces` are the leftmost, non-overlapping
      matches of `p`: no match of `p` starts inside a piece (it would end
      before the separator that follows the piece does), and the last piece
      holds no match. */
  predicate LeftmostPieces(pieces: seq<string>, p: string)
    requires |p| > 0
  {
    && |pieces| >= 1
    && (forall i :: 0 <= i < |pieces| - 1 ==> !Occurs(p, pieces[i] + p[..|p| - 1]))
    && !Occurs(p, pieces[|pieces| - 1])
  }

  /** The cut of `s` at the matches `s.replace(/p/g, '')` deletes: the kept
      pieces, with `s` equal to them interleaved with `p`. */
  function Pieces(s: string, p: string): (pieces: seq<string>)
    requires |p| > 0
    ensures LeftmostPieces(pieces, p)
    ensures Interleave(pieces, p) == s
    decreases |s|
  {
    if StartsWith(s, p) then
      var rest := Pieces(s[|p|..], p);
      PiecesAfterMatch(s, p, rest);
      [""] + rest
    else if |s| == 0 then [""]
    else
      var rest := Pieces(s[1..], p);
      PiecesAfterKept(s, p, rest);
      [[s[0]] + rest[0]] + rest[1..]
  }

  lemma PiecesAfterMatch(s: string, p: string, rest: seq<string>)
    requires |p| > 0 && StartsWith(s, p)
    requires LeftmostPieces(rest, p) && Interleave(rest, p) == s[|p|..]
    ensures LeftmostPieces([""] + rest, p)
    ensures Interleave([""] + rest, p) == s
  {
    var empty: string := [];
    InterleaveCons(empty, rest, p);
    assert s == p + s[|p|..] by {
      assert s[..|p|] == p;
    }
    assert empty + p[..|p| - 1] == p[..|p| - 1];
    NoMatchInShorter(p, empty + p[..|p| - 1]);
    ConsLeftmost(empty, rest, p);
  }

  lemma PiecesAfterKept(s: string, p: string, rest: seq<string>)
    requires |p| > 0 && |s| > 0 && !StartsWith(s, p)
    requires LeftmostPieces(rest, p) && Interleave(rest, p) == s[1..]
    ensures LeftmostPieces([[s[0]] + rest[0]] + rest[1..], p)
    ensures Interleave([[s[0]] + rest[0]] + rest[1..], p) == s
  {
    if |rest| == 1 {
      PiecesAfterKeptLast(s, p, rest[0]);
      assert [[s[0]] + rest[0]] + rest[1..] == [s];
    } else {
      PiecesAfterKeptMore(s, p, rest);
    }
  }

  lemma PiecesAfterKeptLast(s: string, p: string, last: string)
    requires |p| > 0 && |s| > 0 && !StartsWith(s, p)
    requires !Occurs(p, last) && last == s[1..]
    ensures [s[0]] + last == s
    ensures LeftmostPieces([s], p)
    ensures Interleave([s], p) == s
  {
  }

  lemma PiecesAfterKeptMore(s: string, p: string, rest: seq<string>)
    requires |p| > 0 && |s| > 0 && !StartsWith(s, p)
    requires |rest| >= 2
    requires LeftmostPieces(rest, p) && Interleave(rest, p) == s[1..]
    ensures LeftmostPieces([[s[0]] + rest[0]] + rest[1..], p)
    ensures Interleave([[s[0]] + rest[0]] + rest[1..], p) == s
  {
    var head := [s[0]] + rest[0];
    var tail := Interleave(rest[1..], p);
    assert s[1..] == rest[0] + p + tail;
    ConsAssoc(s[0], rest[0], p, tail);
    assert s == [s[0]] + s[1..];
    assert head[1..] == rest[0];
    KeptHeadNoMatch(head, p, tail, rest[0]);
    PiecesWithNewHead(head, rest, p);
  }

  lemma ConsAssoc(c: char, a: string, b: string, d: string)
    ensures [c] + a + b + d == [c] + (a + b + d)
  {
  }

  lemma KeptHeadNoMatch(head: string, p: string, tail: string, kept: string)
    requires |p| > 0 && |head| > 0 && head[1..] == kept
    requires !StartsWith(head + p + tail, p)
    requires !Occurs(p, kept + p[..|p| - 1])
    ensures !Occurs(p, head + p[..|p| - 1])
  {
    assert (head + p[..|p| - 1])[1..] == kept + p[..|p| - 1];
    NoMatchBeforeSeparator(head, p, tail);
  }

  lemma PiecesWithNewHead(head: string, rest: seq<string>, p: string)
    requires |p| > 0 && |rest| >= 2
    requires LeftmostPieces(rest, p)
    requires !Occurs(p, head + p[..|p| - 1])
    ensures LeftmostPieces([head] + rest[1..], p)
    ensures Interleave([head] + rest[1..], p) == head + p + Interleave(rest[1..], p)
  {
  }

  /** A piece with no match before the separator that follows it can go
      in front of leftmost pieces. */
  lemma ConsLeftmost(head: string, rest: seq<string>, p: string)
    requires |p| > 0 && LeftmostPieces(rest, p)
    requires !Occurs(p, head + p[..|p| - 1])
    ensures LeftmostPieces([head] + rest, p)
  {
  }

  /** A match at the very start of `a + p[..|p| - 1]` with `a` non-empty
      is also one at the start of `a + p + b`. */
  lemma NoMatchBeforeSeparator(a: string, p: string, b: string)
    requires |p| > 0 && |a| > 0
    requires !StartsWith(a + p + b, p)
    ensures !StartsWith(a + p[..|p| - 1], p)
  {
  }

  /** Leftmost pieces stay leftmost without their first piece. */
  lemma LeftmostTail(pieces: seq<string>, p: string)
    requires |p| > 0 && |pieces| >= 2 && LeftmostPieces(pieces, p)
    ensures LeftmostPieces(pieces[1..], p)
  {
    forall i | 0 <= i < |pieces[1..]| - 1
      ensures !Occurs(p, pieces[1..][i] + p[..|p| - 1])
    {
      assert pieces[1..][i] == pieces[i + 1];
    }
  }

  /** Leftmost pieces stay leftmost when the first piece loses its first
      character. */
  lemma LeftmostDropFirstChar(pieces: seq<string>, p: string)
    requires |p| > 0 && |pieces| >= 2 && pieces[0] != "" && LeftmostPieces(pieces, p)
    ensures LeftmostPieces([pieces[0][1..]] + pieces[1..], p)
  {
    var pieces' := [pieces[0][1..]] + pieces[1..];
    assert (pieces[0] + p[..|p| - 1])[1..] == pieces[0][1..] + p[..|p| - 1];
    forall i | 0 <= i < |pieces'| - 1
      ensures !Occurs(p, pieces'[i] + p[..|p| - 1])
    {
      if i > 0 {
        assert pieces'[i] == pieces[i];
      }
    }
    assert pieces'[|pieces'| - 1] == pieces[|pieces| - 1];
  }

  /** `RemoveAll` keeps exactly the pieces between the leftmost matches:
      whenever `s` is some pieces interleaved with `p` at its leftmost
      matches, the result is those pieces, in order, with nothing else. */
  lemma {:induction false} RemoveAllKeepsPieces(s: string, p: string, pieces: seq<string>)
    requires |p| > 0
    requires LeftmostPieces(pieces, p)
    requires Interleave(pieces, p) == s
    ensures RemoveAll(s, p) == Concat(pieces)
    decreases |s|
  {
    if |pieces| == 1 {
      assert Concat(pieces) == pieces[0] + Concat([]);
    } else if pieces[0] == "" {
      var tail := Interleave(pieces[1..], p);
      assert s == p + tail;
      assert s[..|p|] == p && s[|p|..] == tail;
      LeftmostTail(pieces, p);
      RemoveAllKeepsPieces(tail, p, pieces[1..]);
    } else {
      var pieces' := [pieces[0][1..]] + pieces[1..];
      assert !Occurs(p, pieces[0] + p[..|p| - 1]);
      KeptFirstChar(s, p, pieces);
      assert pieces == [pieces[0]] + pieces[1..];
      InterleaveDropFirstChar(pieces[0], pieces[1..], p);
      ConcatDropFirstChar(pieces[0], pieces[1..]);
      LeftmostDropFirstChar(pieces, p);
      RemoveAllKeepsPieces(s[1..], p, pieces');
    }
  }

  /** When the first piece is not empty and no match starts in it, no
      match starts at the beginning of `s` either. */
  lemma KeptFirstChar(s: string, p: string, pieces: seq<string>)
    requires |p| > 0 && |pieces| >= 2 && pieces[0] != ""
    requires !StartsWith(pieces[0] + p[..|p| - 1], p) && Interleave(pieces, p) == s
    ensures |s| > 0 && s[0] == pieces[0][0] && !StartsWith(s, p)
  {
    var tail := Interleave(pieces[1..], p);
    assert s == pieces[0] + p + tail;
    assert (pieces[0] + p[..|p| - 1])[..|p|] == s[..|p|];
  }

  lemma InterleaveCons(a: string, rest: seq<string>, p: string)
    requires |rest| >= 1
    ensures Interleave([a] + rest, p) == a + p + Interleave(rest, p)
  {
    assert ([a] + rest)[1..] == rest;
  }

  lemma ConcatCons(a: string, rest: seq<string>)
    ensures Concat([a] + rest) == a + Concat(rest)
  {
    assert ([a] + rest)[1..] == rest;
  }

  /** Without its first character, a non-empty first piece interleaves
      with the rest to the rest of the text. */
  lemma InterleaveDropFirstChar(a: string, rest: seq<string>, p: string)
    requires |rest| >= 1 && a != ""
    ensures Interleave([a[1..]] + rest, p) == Interleave([a] + rest, p)[1..]
  {
    InterleaveCons(a[1..], rest, p);
    InterleaveCons(a, rest, p);
    assert (a + p + Interleave(rest, p))[1..] == a[1..] + p + Interleave(rest, p);
  }

  /** Without its first character, a non-empty first piece concatenates
      with the rest to the rest of the concatenation. */
  lemma ConcatDropFirstChar(a: string, rest: seq<string>)
    requires a != ""
    ensures Concat([a] + rest) == [a[0]] + Concat([a[1..]] + rest)
  {
    ConcatCons(a[1..], rest);
    ConcatCons(a, rest);
    assert a + Concat(rest) == [a[0]] + (a[1..] + Concat(rest));
  }

  /** Two pieces interleaved. */
  lemma InterleavePair(a: string, p: string, b: string)
    ensures Interleave([a, b], p) == a + p + b
  {
  }

  /** Two pieces one after the other. */
  lemma ConcatPair(a: string, b: string)
    ensures Concat([a, b]) == a + b
  {
    assert [a, b][1..] == [b];
    assert [b][1..] == [];
    assert Concat([b]) == b + Concat([]);
  }

  /** For every `s`: `s` is its pieces interleaved with `p`, and `RemoveAll`
      returns just the pieces. */
  lemma RemoveAllDeletesOnlyMatches(s: string, p: string)
    requires |p| > 0
    ensures Interleave(Pieces(s, p), p) == s
    ensures RemoveAll(s, p) == Concat(Pieces(s, p))
  {
    RemoveAllKeepsPieces(s, p, Pieces(s, p));
  }

  /** Index of the first `c` in `s`, or `None` (`s.indexOf(c)`, with -1 as `None`). */
  function IndexOf(s: string, c: char): (r: Option<nat>)
    ensures r.None? <==> c !in s
    ensures r.Some? ==> r.value < |s| && s[r.value] == c && c !in s[..r.value]
  {
    if |s| == 0 then None
    else if s[0] == c then Some(0)
    else
      match IndexOf(s[1..], c)
      case None => None
      case Some(i) =>
        assert s[..i + 1] == [s[0]] + s[1..][..i];
        Some(i + 1)
  }

  /** The segments of `s` between occurrences of `sep` (`s.split(sep)`):
      never empty, no segment contains `sep`, and joining them back with
      `sep` gives `s`. */
  function Split(s: string, sep: char): (parts: seq<string>)
    ensures |parts| >= 1
    ensures forall i :: 0 <= i < |parts| ==> sep !in parts[i]
    ensures Join(parts, sep) == s
    decreases |s|
  {
    match IndexOf(s, sep)
    case None => [s]
    case Some(i) =>
      var rest := Split(s[i + 1..], sep);
      assert s == s[..i] + [sep] + s[i + 1..];
      assert ([s[..i]] + rest)[1..] == rest;
      [s[..i]] + rest
  }

  /** The segments joined with `sep` between neighbours (`parts.join(sep)`). */
  function Join(parts: seq<string>, sep: char): string
    requires |parts| >= 1
  {
    if |parts| == 1 then parts[0] else parts[0] + [sep] + Join(parts[1..], sep)
  }

  lemma IndexOfAfterSegment(a: string, c: char, b: string)
    requires c !in a
    ensures IndexOf(a + [c] + b, c) == Some(|a|)
  {
    var s := a + [c] + b;
    assert s[|a|] == c;
    assert forall j :: 0 <= j < |a| ==> s[j] == a[j];
  }

  /** Splitting undoes joining: the segments are recovered exactly when
      none of them contains the separator. */
  lemma {:induction false} SplitJoin(parts: seq<string>, sep: char)
    requires |parts| >= 1
    requires forall i :: 0 <= i < |parts| ==> sep !in parts[i]
    ensures Split(Join(parts, sep), sep) == parts
    decreases |parts|
  {
    if |parts| > 1 {
      var tail := Join(parts[1..], sep);
      var s := parts[0] + [sep] + tail;
      IndexOfAfterSegment(parts[0], sep, tail);
      assert s[..|parts[0]|] == parts[0];
      assert s[|parts[0]| + 1..] == tail;
      SplitJoin(parts[1..], sep);
      assert parts == [parts[0]] + parts[1..];
    }
  }

  /** A leading segment free of `sep` is split off on its own. */
  lemma SplitAfterSegment(a: string, sep: char, b: string)
    requires sep !in a
    ensures Split(a + [sep] + b, sep) == [a] + Split(b, sep)
  {
    var s := a + [sep] + b;
    IndexOfAfterSegment(a, sep, b);
    assert s[..|a|] == a;
    assert s[|a| + 1..] == b;
  }

  /** The first segment of a string that is empty or starts with `sep` is empty. */
  lemma SplitLeadingEmpty(s: string, sep: char)
    requires s == [] || s[0] == sep
    ensures Split(s, sep)[0] == []
  {
  }
}
